=== FILE: README.md ===
# Synthesis Coding site build, in Dafny

A model of `scripts/build.js`, the build script of the Synthesis Coding
article site. The script reads every markdown file of `content/articles/`,
validates each file's front matter, renders each valid article into a page
and a WordPress export, and renders the article listing page from the
accepted articles. It also reports sync drift: articles edited after their
last copy to WordPress.

The model follows the script's own structure, one module per concern:

- `Articles` (articles.dfy): the parsed article (front matter, markdown,
  HTML). It also holds the JavaScript value conventions the script relies
  on: a missing field is `None`, `x || ''` is `OrEmpty`, and `${x}` of a
  missing field renders as `undefined` (`Interpolated`).
- `Seqs` (seqs.dfy) and `Text` (text.dfy): list and string helpers. They
  cover filter, map and concatenation. `ReplaceAll` is `replace(/lit/g, v)`
  for a literal pattern, characterised as split-then-join.
- `Validation` (validation.dfy): `validateArticle`.
- `Sorting` (sorting.dfy): a stable insertion sort by a comparator, as
  `Array.prototype.sort` is called.
- `Listing` (listing.dfy): the listing comparator, the sort of the
  articles, and `generateListingHtml`.
- `Templates` (templates.dfy): `generateTagsHtml`, `generateArticleHtml`
  and `generateWordPressHtml`.
- `Sync` (sync.dfy): `checkSyncStatus`.
- `Pipeline` (pipeline.dfy): the file loop of `build` and what it produces.

The source's loops become methods with loop invariants. Each method is
proved equal to a specification function, and the lemmas state what those
functions guarantee.

Model choices:

- A front-matter date is a pair. `text` is what the value renders to inside
  a string. `instant` is what `new Date(...)` compares.
- A missing date makes the comparator return NaN, which `sort` treats as 0.
  The model reproduces that.
- The listing sort is modelled as a stable insertion sort.
- The content directory listing, the parse outcome of each file, both
  templates and the `formatDate` function are parameters.

`indexOf` gives an unknown category the index -1, so articles of a
category outside the list are listed before "Core Series"
(`Listing.CompareAcrossCategories`).

Each function of the script and its counterpart in the model:

- `validateArticle`: `Validation.ValidateArticle`, specified by
  `Validation.ValidationErrors`. `path.basename(filePath, '.md')` is
  `Validation.Basename`.
- the comparator passed to `sort`: `Listing.Compare`. The sort itself is
  `Listing.SortListing`, an instance of `Sorting.InsertionSort`.
- `generateListingHtml`: `Listing.GenerateListingHtml`, specified by
  `Listing.ListingPage`. One `<li>` is `Listing.ListItem`.
- `generateTagsHtml`: `Templates.TagsHtml`.
- `generateArticleHtml`: `Templates.ArticleHtml`.
- `generateWordPressHtml`: `Templates.WordPressHtml`.
- `checkSyncStatus`: `Sync.CheckSyncStatus`, specified by
  `Sync.SyncWarnings`. One warning is `Sync.SyncWarning`.
- `build`: `Pipeline.Build`, with the file loop in `Pipeline.ProcessFiles`
  and the listing page and sync warnings in `Pipeline.Publish`.
  The `.md` filter is `Pipeline.IsMarkdown`.

Functions that only compute a value (`TagsHtml`, `ArticleHtml`,
`WordPressHtml`, `ListItem`, `SyncWarning`, `IsMarkdown`) carry no contract
of their own. The table below names the lemmas that state what they
guarantee.

## Model

| member | source | states |
|---|---|---|
| Validation.ValidateArticle | scripts/build.js:182-210 | the errors pushed are exactly the missing-field errors and the slug-mismatch error of the front matter, and no warning is ever produced |
| Validation.ValidationErrorsInOrder | scripts/build.js:187-204 | errors come in the order title, slug, date, canonical_url, then the slug/file-name mismatch, each field contributing its own message |
| Validation.ValidationErrorsEmptyIff | scripts/build.js:187-204 | a file has no error exactly when title, slug, date and canonical_url are all truthy and the slug equals the file name without `.md` |
| Validation.ValidationErrorsAtMostFour | scripts/build.js:187-204 | at most four errors are reported: a missing slug suppresses the mismatch check |
| Validation.ValidationIgnoresPathWithoutSlug | scripts/build.js:190-204 | without a slug the "Missing required field: slug" error is reported and the file path no longer matters |
| Validation.MissingFieldReported | scripts/build.js:187-198 | "Missing required field: title" (and likewise slug and canonical_url) is among the errors exactly when that field is falsy, and the date message exactly when the date is missing, whatever else is wrong with the file |
| Validation.LastSegment | scripts/build.js:201 | the base name is the longest suffix of the path without `/`: the whole path, or the text after its last `/` |
| Validation.Basename | scripts/build.js:201 | bounds the result only: it is the base name itself or the base name less a trailing `.md`, a stripped name is never empty, and it has no `/`; the exact value is `Validation.BasenameOfEntry`'s |
| Validation.BasenameOfEntry | scripts/build.js:201 | for a file `name` joined under a directory, `path.basename(filePath, '.md')` is `name` with a trailing `.md` removed |
| Listing.IndexOf | scripts/build.js:127 | `indexOf` gives -1 exactly for a category not in the list, otherwise the first position holding it |
| Listing.Compare | scripts/build.js:120-137 | across categories the earlier list position goes first; within a category the lower series order goes first; at equal order the later date goes first; a tie needs equal categories or two unknown ones |
| Listing.CompareAcrossCategories | scripts/build.js:122-128 | known categories sort in the order of the category list; an article without a category is ordered among the "Other" articles; an unknown category sorts before every known one; two different unknown categories tie |
| Listing.MissingCategoryIsOther | scripts/build.js:122-123 | an article without a category compares, on either side and in every case, exactly as the same article with category "Other" |
| Listing.CompareWithinCategory | scripts/build.js:129-136 | within one category, a smaller series order sorts first (missing or 0 counts as 999); at equal series order the later date sorts first |
| Listing.CompareAntisymmetric | scripts/build.js:120-137 | swapping the two articles negates the comparator's result |
| Listing.CompareTransitive | scripts/build.js:120-137 | among articles with a known category and a date, "sorts no later than" is transitive |
| Listing.UnknownCategoriesBreakTransitivity | scripts/build.js:124-127 | with two different unknown categories, ties are not transitive, so the sorted order depends on the sort algorithm |
| Listing.CompareMeansListedBefore | scripts/build.js:120-137 | among comparable articles, a non-positive comparison means: earlier category in the list, or same category and lower series order, or same both and a date no earlier |
| Listing.SortListing | scripts/build.js:120 | the sorted copy is a permutation of the articles |
| Sorting.InsertionSort | scripts/build.js:120 | sorting by any comparator returns a permutation of its input |
| Sorting.InsertionSortAdjacentSorted | scripts/build.js:120 | for any comparator that flips sign when its arguments swap, neighbours in the result are in comparator order |
| Sorting.AdjacentSortedIsSorted | scripts/build.js:120 | where the comparator is transitive, ordered neighbours make every pair ordered |
| Sorting.InsertionSortKeepsOrder | scripts/build.js:120 | for any comparator, an element stays ahead of every later element it does not compare after, so tied elements keep their input order |
| Listing.SortListingMembers | scripts/build.js:120 | sorting neither adds nor drops an article |
| Listing.SortListingAdjacentSorted | scripts/build.js:120-137 | every article compares no later than its successor in the sorted copy |
| Listing.SortListingSorted | scripts/build.js:120-137 | when every article has a known category and a date, every earlier article compares no later than every later one |
| Listing.SortListingKeepsOrder | scripts/build.js:120-137 | the listing sort is stable: an article stays ahead of every later article it does not compare after |
| Listing.ListingOrder | scripts/build.js:119-137 | in that case the listing shows categories in list order, then series order ascending, then newest first |
| Listing.GenerateListingHtml | scripts/build.js:118-154 | the page is the template with every `{{articles_list}}` replaced by one item per sorted article, in sorted order |
| Listing.ListingPageFillsPlaceholder | scripts/build.js:140-151 | a template holding `{{articles_list}}` once gets all items, one per article, exactly there and is otherwise unchanged |
| Listing.ListPlaceholderUnbordered | scripts/build.js:151 | two occurrences of `{{articles_list}}` can never overlap |
| Text.ReplaceAll | scripts/build.js:151 | a text in which the pattern does not occur is returned unchanged |
| Text.Pieces | scripts/build.js:84-92 | the pieces between occurrences join back to the text, and no piece holds the pattern |
| Text.ReplaceAllIsSplitJoin | scripts/build.js:103-110 | a global literal replacement cuts the text at every occurrence and joins the pieces with the replacement |
| Text.ReplaceAllAfterPlain | scripts/build.js:151 | the scan passes over text without the pattern, replaces the first occurrence, and continues after it |
| Text.ReplaceAllSingle | scripts/build.js:151 | a pattern that cannot overlap itself and occurs once is replaced at that place, and the text around it is kept |
| Templates.TagsHtmlEmptyIff | scripts/build.js:69-75 | the tags HTML is empty exactly when tags are missing or the list is empty |
| Templates.TagsHtmlInOrder | scripts/build.js:73 | one tag gives one `<span class="tag">`, and the spans follow the tags' order |
| Templates.ArticleHtmlKeepsPlainTemplate | scripts/build.js:80-95 | a template without `{{` comes out unchanged |
| Templates.ArticleHtmlTitleFirst | scripts/build.js:84-92 | substitutions run in order over the whole text so far: a `{{title}}` template yields the title run through the later substitutions, which is the title itself when it holds no `{{` |
| Templates.ArticleHtmlFillsContent | scripts/build.js:80-95 | a page template with `{{content}}` inside HTML holding no other `{{` gets the article body at that place, the HTML around it kept: the eight earlier substitutions find nothing to replace |
| Templates.WordPressHtmlRewrites | scripts/build.js:100-113 | the export rewrites every `src="/articles/images/` to the absolute images URL, then every `src="./images/` to the article's absolute images URL |
| Templates.WordPressHtmlKeepsPlainBody | scripts/build.js:100-113 | a body with neither image prefix is exported unchanged |
| Sync.CheckSyncStatus | scripts/build.js:159-176 | the warnings are one message per drifted article, in article order |
| Sync.SyncWarningsCharacterised | scripts/build.js:162-171 | an article gets a warning exactly when `updated` and `wordpress_synced` are both set and `updated` is later; warnings never outnumber articles and follow their order |
| Sync.NoDriftNoWarnings | scripts/build.js:164-167 | with no drifted article there are no warnings |
| Seqs.Filter | scripts/build.js:262 | filtering keeps exactly the entries that satisfy the test |
| Seqs.FilterIsSubsequence | scripts/build.js:262 | the kept entries keep their directory order |
| Pipeline.ProcessFile | scripts/build.js:287-324 | a file is accepted exactly when it parsed and its validation reported no error |
| Pipeline.ProcessFiles | scripts/build.js:280-325 | the loop keeps exactly the accepted articles in file order, one page and one export per kept article, and `hasErrors` is set exactly when some file was dropped |
| Pipeline.Build | scripts/build.js:249-342 | a missing directory or one without `.md` files builds nothing; otherwise the kept articles, their outputs and the error flag are as above, and the listing page and sync warnings are produced from the kept articles exactly when there is one |
| Pipeline.Publish | scripts/build.js:327-341 | the listing page and the sync warnings are produced from the kept articles when there is at least one, and neither otherwise |
| Pipeline.KeptSound | scripts/build.js:283-302 | every kept article came from a parsed file whose title, slug, date and canonical_url are truthy and whose slug is its file name without `.md` |
| Pipeline.KeptComplete | scripts/build.js:283-302 | every file that parsed and validated is kept |
| Pipeline.KeptCount | scripts/build.js:283-302 | no more articles are kept than files were read, and all are kept exactly when every file is accepted |
| Pipeline.BuildErrorsIffDropped | scripts/build.js:281-325 | the build reports errors exactly when some markdown file is not published |

## Left out

- File-system effects are not modelled: creating directories, writing the pages, the listing and the exports, `ensureDirectories` and `copyImages`. The model returns the text of each file instead.
- `readTemplate` is not modelled, including the exit when a template is missing. The two templates are parameters.
- `parseMarkdownFile` is not modelled: reading a file, gray-matter and `marked`. Each directory entry carries its parse outcome, an article or a failure, as input.
- `formatDate` and `toLocaleDateString` are not modelled. Formatting is a parameter; a missing date formats as "Invalid Date".
- JavaScript date parsing is not modelled. Dates arrive already parsed, and an unparsable date string (NaN) is not represented.
- `$` patterns in replacement values (`$&`, `$1`, `$$`) are not modelled. Replacement text is taken literally.
- Console output is not modelled: progress lines, error lists and the final summary.
- Pipeline.ProcessFiles: assumes the page and export writes succeed. In the script a failing write after `articles.push` keeps the article and also sets `hasErrors`.
- Listing.SortListing: the JavaScript engine's sort algorithm is not specified by the script. The model uses a stable insertion sort. When the comparator is inconsistent (two different unknown categories, or missing dates), another engine may order articles differently.
- Front-matter values of other YAML types are not modelled, e.g. a numeric slug or a `tags` value that is not a list, which would make `tags.map` throw.
- Validation.Basename: models `path.basename` for paths built by joining a directory and an entry name; trailing separators and `path.join` normalisation are not modelled. Its contract only bounds the result; the exact name (a longer name loses its trailing `.md`) is stated by `Validation.BasenameOfEntry`, for the directory-entry paths `build` passes.
- Slug uniqueness across files is not checked by the script and is not modelled.

=== FILE: articles.dfy ===
/** The data the build script works on: one parsed markdown file (its
    front matter, its markdown body and the HTML rendered from it), and the
    JavaScript value conventions the script relies on when it reads front
    matter fields (truthiness, `x || ''`, and `${x}` of a missing field). */
module Articles {

  datatype Option<+T> = None | Some(value: T)

  /** A front-matter date. `text` is what the value renders to inside a
      string (`${date}` or a `replace` value); `instant` is the point in time
      `new Date(date)` denotes, in milliseconds, used for comparisons. */
  datatype Date = Date(text: string, instant: int)

  /** The front-matter fields the build script reads. A field absent from
      the YAML block is `None`. */
  datatype FrontMatter = FrontMatter(
    title: Option<string>,
    slug: Option<string>,
    date: Option<Date>,
    canonicalUrl: Option<string>,
    description: Option<string>,
    category: Option<string>,
    tags: Option<seq<string>>,
    seriesOrder: Option<int>,
    updated: Option<Date>,
    wordpressSynced: Option<Date>)

  /** The result of parsing one markdown file: front matter, the markdown
      body with the front matter stripped, and the body rendered to HTML. */
  datatype Article = Article(frontMatter: FrontMatter, markdown: string, html: string)

  /** JavaScript truthiness of an optional string field: `undefined` and
      the empty string are falsy. */
  predicate Truthy(s: Option<string>)
  {
    s.Some? && s.value != ""
  }

  /** `field || ''`: the field's text, or the empty string when it is falsy. */
  function OrEmpty(s: Option<string>): (r: string)
    ensures Truthy(s) ==> r == s.value
    ensures !Truthy(s) ==> r == ""
  {
    if s.Some? then s.value else ""
  }

  /** `${field}` in a template literal, or a field passed as a `replace`
      value: a missing field renders as the text "undefined". */
  function Interpolated(s: Option<string>): string
  {
    if s.Some? then s.value else "undefined"
  }

  /** A date field rendered inside a string: its text, or "undefined". */
  function DateText(d: Option<Date>): string
  {
    if d.Some? then d.value.text else "undefined"
  }
}

=== FILE: listing.dfy ===
/** The article listing page (`generateListingHtml`): a sorted copy of the
    articles, ordered by a three-level comparator, rendered as one `<li>`
    per article and substituted into the listing template. */
module Listing {
  import opened Seqs
  import opened Text
  import opened Articles
  import opened Sorting

  /** The display order of the known categories. */
  const CategoryOrder: seq<string> :=
    ["Core Series", "Case Study", "Advanced Patterns", "Comparison", "Philosophical Foundation", "Other"]

  /** `list.indexOf(x)`: the first position of `x`, or -1 when absent. */
  function IndexOf(list: seq<string>, x: string): (r: int)
    ensures -1 <= r < |list|
    ensures r == -1 <==> x !in list
    ensures 0 <= r ==> r < |list| && list[r] == x && x !in list[..r]
  {
    if list == [] then -1
    else if list[0] == x then 0
    else
      var k := IndexOf(list[1..], x);
      assert list[1..][..if k < 0 then 0 else k] == list[1..if k < 0 then 1 else k + 1];
      if k == -1 then -1 else k + 1
  }

  /** `a.frontMatter.category || 'Other'`. */
  function CategoryOf(a: Article): string
  {
    if Truthy(a.frontMatter.category) then a.frontMatter.category.value else "Other"
  }

  /** `a.frontMatter.series_order || 999`: a missing or zero order sorts as 999. */
  function SeriesOrderOf(a: Article): int
  {
    match a.frontMatter.seriesOrder
    case None => 999
    case Some(n) => if n == 0 then 999 else n
  }

  /** The comparator passed to `sort`: negative when `a` goes first. Across
      categories it compares positions in `CategoryOrder`, where an unknown
      category has position -1; within a category it compares series order,
      then dates, newest first. A missing date makes the date difference NaN,
      which `sort` reads as 0. */
  function Compare(a: Article, b: Article): (r: int)
    ensures CategoryOf(a) != CategoryOf(b) ==>
              (r < 0 <==> IndexOf(CategoryOrder, CategoryOf(a)) < IndexOf(CategoryOrder, CategoryOf(b)))
    ensures CategoryOf(a) == CategoryOf(b) && SeriesOrderOf(a) != SeriesOrderOf(b) ==>
              (r < 0 <==> SeriesOrderOf(a) < SeriesOrderOf(b))
    ensures CategoryOf(a) == CategoryOf(b) && SeriesOrderOf(a) == SeriesOrderOf(b) ==>
              (r < 0 <==> a.frontMatter.date.Some? && b.frontMatter.date.Some? &&
                          a.frontMatter.date.value.instant > b.frontMatter.date.value.instant)
    ensures r == 0 ==> CategoryOf(a) == CategoryOf(b) || (CategoryOf(a) !in CategoryOrder && CategoryOf(b) !in CategoryOrder)
  {
    var catA, catB := CategoryOf(a), CategoryOf(b);
    if catA != catB then
      IndexOf(CategoryOrder, catA) - IndexOf(CategoryOrder, catB)
    else
      var orderA, orderB := SeriesOrderOf(a), SeriesOrderOf(b);
      if orderA != orderB then orderA - orderB
      else if a.frontMatter.date.Some? && b.frontMatter.date.Some? then
        b.frontMatter.date.value.instant - a.frontMatter.date.value.instant
      else 0
  }

  /** Swapping the arguments negates the comparison, for every pair. */
  lemma CompareAntisymmetric(a: Article, b: Article)
    ensures Compare(a, b) == -Compare(b, a)
  {
  }

  /** Across categories: known categories follow `CategoryOrder`, an article
      without a category is ordered among the "Other" articles, an unknown
      category precedes every known one, and two different unknown
      categories compare equal. */
  lemma CompareAcrossCategories(a: Article, b: Article)
    ensures (!Truthy(a.frontMatter.category) && b.frontMatter.category == Some("Other") &&
             SeriesOrderOf(a) != SeriesOrderOf(b)) ==> (Compare(a, b) < 0 <==> SeriesOrderOf(a) < SeriesOrderOf(b))
    ensures forall i, j :: 0 <= i < j < |CategoryOrder| &&
              CategoryOf(a) == CategoryOrder[i] && CategoryOf(b) == CategoryOrder[j]
              ==> Compare(a, b) < 0
    ensures CategoryOf(a) !in CategoryOrder && CategoryOf(b) in CategoryOrder ==> Compare(a, b) < 0
    ensures (CategoryOf(a) !in CategoryOrder && CategoryOf(b) !in CategoryOrder &&
             CategoryOf(a) != CategoryOf(b)) ==> Compare(a, b) == 0
  {
    if !Truthy(a.frontMatter.category) && b.frontMatter.category == Some("Other") {
      assert CategoryOf(a) == CategoryOf(b);
    }
    if CategoryOf(a) !in CategoryOrder && CategoryOf(b) in CategoryOrder {
      CompareUnknownFirst(a, b);
    }
    forall i, j | 0 <= i < j < |CategoryOrder| &&
                  CategoryOf(a) == CategoryOrder[i] && CategoryOf(b) == CategoryOrder[j]
      ensures Compare(a, b) < 0
    {
      CompareKnownOrder(a, b, i, j);
    }
  }

  /** An article without a category compares, on either side, exactly as
      the same article with category "Other". */
  lemma MissingCategoryIsOther(a: Article, b: Article)
    requires !Truthy(a.frontMatter.category)
    ensures var other := a.(frontMatter := a.frontMatter.(category := Some("Other")));
      Compare(a, b) == Compare(other, b) && Compare(b, a) == Compare(b, other)
  {
    var other := a.(frontMatter := a.frontMatter.(category := Some("Other")));
    assert CategoryOf(a) == CategoryOf(other) && SeriesOrderOf(a) == SeriesOrderOf(other);
  }

  /** A known category at position `i` precedes one at a later position `j`. */
  lemma CompareKnownOrder(a: Article, b: Article, i: nat, j: nat)
    requires i < j < |CategoryOrder|
    requires CategoryOf(a) == CategoryOrder[i] && CategoryOf(b) == CategoryOrder[j]
    ensures Compare(a, b) < 0
  {
    assert CategoryOrder[i] != CategoryOrder[j];
    IndexOfKnown(CategoryOf(a), i);
    IndexOfKnown(CategoryOf(b), j);
  }

  /** An unknown category precedes every known one. */
  lemma CompareUnknownFirst(a: Article, b: Article)
    requires CategoryOf(a) !in CategoryOrder && CategoryOf(b) in CategoryOrder
    ensures Compare(a, b) < 0
  {
    assert IndexOf(CategoryOrder, CategoryOf(a)) < 0 <= IndexOf(CategoryOrder, CategoryOf(b));
  }

  /** Each known category sits at exactly one position of `CategoryOrder`. */
  lemma IndexOfKnown(c: string, i: nat)
    requires i < |CategoryOrder| && CategoryOrder[i] == c
    ensures IndexOf(CategoryOrder, c) == i
  {
  }

  /** Within one category: the lower effective series order goes first, and
      for equal orders the later date goes first. */
  lemma CompareWithinCategory(a: Article, b: Article)
    requires CategoryOf(a) == CategoryOf(b)
    ensures SeriesOrderOf(a) != SeriesOrderOf(b) ==> (Compare(a, b) < 0 <==> SeriesOrderOf(a) < SeriesOrderOf(b))
    ensures SeriesOrderOf(a) == SeriesOrderOf(b) && a.frontMatter.date.Some? && b.frontMatter.date.Some? ==>
              (Compare(a, b) < 0 <==> a.frontMatter.date.value.instant > b.frontMatter.date.value.instant)
  {
  }

  /** An article whose category is one of `CategoryOrder` and which has a
      date. Over such articles the comparator is a total preorder. */
  predicate Comparable(a: Article)
  {
    CategoryOf(a) in CategoryOrder && a.frontMatter.date.Some?
  }

  /** Two different unknown categories tie whatever their series orders and
      dates, so "ties with" is not transitive once a category is unknown:
      `c` ties with `b` and `b` with `a`, yet `a` goes before `c`. The order
      `sort` then produces depends on the engine's algorithm. */
  lemma UnknownCategoriesBreakTransitivity(a: Article, b: Article, c: Article)
    requires CategoryOf(a) == CategoryOf(c) && CategoryOf(a) !in CategoryOrder
    requires CategoryOf(b) !in CategoryOrder && CategoryOf(b) != CategoryOf(a)
    requires SeriesOrderOf(a) < SeriesOrderOf(c)
    ensures Compare(c, b) == 0 && Compare(b, a) == 0 && Compare(a, c) < 0
  {
  }

  /** Over comparable articles, "goes no later than" is transitive. */
  lemma CompareTransitive(a: Article, b: Article, c: Article)
    requires Comparable(a) && Comparable(b) && Comparable(c)
    requires Compare(a, b) <= 0 && Compare(b, c) <= 0
    ensures Compare(a, c) <= 0
  {
    var ia := IndexOf(CategoryOrder, CategoryOf(a));
    var ib := IndexOf(CategoryOrder, CategoryOf(b));
    var ic := IndexOf(CategoryOrder, CategoryOf(c));
    assert CategoryOrder[ia] == CategoryOf(a) && CategoryOrder[ib] == CategoryOf(b) && CategoryOrder[ic] == CategoryOf(c);
    assert (CategoryOf(a) == CategoryOf(b)) == (ia == ib);
    assert (CategoryOf(b) == CategoryOf(c)) == (ib == ic);
    assert (CategoryOf(a) == CategoryOf(c)) == (ia == ic);
  }

  /** `[...articles].sort(compare)`: a stable sort of a copy of the articles
      (an insertion sort; the input sequence is a value and is not changed).
      The result is a permutation of the input. */
  function SortListing(s: seq<Article>): (r: seq<Article>)
    ensures multiset(r) == multiset(s)
    ensures |r| == |s|
  {
    InsertionSort(Compare, s)
  }

  /** Sorting neither adds nor drops articles. */
  lemma SortListingMembers(s: seq<Article>)
    ensures forall a :: a in SortListing(s) <==> a in s
  {
    var r := SortListing(s);
    assert forall a :: a in r <==> a in multiset(r);
    assert forall a :: a in s <==> a in multiset(s);
  }

  /** Whatever the categories, neighbours in the sorted listing are in
      comparator order. */
  lemma SortListingAdjacentSorted(s: seq<Article>)
    ensures AdjacentSorted(Compare, SortListing(s))
  {
    forall a, b | Compare(a, b) > 0
      ensures Compare(b, a) < 0
    {
      CompareAntisymmetric(a, b);
    }
    InsertionSortAdjacentSorted(Compare, s);
  }

  /** When every article has a known category and a date, the listing is
      sorted: every earlier article compares no later than every later one. */
  lemma SortListingSorted(s: seq<Article>)
    requires forall a :: a in s ==> Comparable(a)
    ensures Sorted(Compare, SortListing(s))
  {
    var r := SortListing(s);
    SortListingAdjacentSorted(s);
    SortListingMembers(s);
    forall i, j, k | 0 <= i < |r| && 0 <= j < |r| && 0 <= k < |r| &&
                     Compare(r[i], r[j]) <= 0 && Compare(r[j], r[k]) <= 0
      ensures Compare(r[i], r[k]) <= 0
    {
      assert r[i] in r && r[j] in r && r[k] in r;
      CompareTransitive(r[i], r[j], r[k]);
    }
    AdjacentSortedIsSorted(Compare, r);
  }

  /** The sort is stable: an article stays ahead of every later article it
      does not compare after, so articles that tie keep their input order. */
  lemma SortListingKeepsOrder(s: seq<Article>, i: nat, j: nat)
    requires i < j < |s| && Compare(s[i], s[j]) <= 0
    ensures Before(SortListing(s), s[i], s[j])
  {
    InsertionSortKeepsOrder(Compare, s, i, j);
  }

  /** What "`a` goes no later than `b`" means for two comparable articles:
      categories in `CategoryOrder`, then ascending series order, then newest
      first. */
  predicate ListedBefore(a: Article, b: Article)
    requires Comparable(a) && Comparable(b)
  {
    && (CategoryOf(a) != CategoryOf(b) ==>
          IndexOf(CategoryOrder, CategoryOf(a)) < IndexOf(CategoryOrder, CategoryOf(b)))
    && (CategoryOf(a) == CategoryOf(b) ==> SeriesOrderOf(a) <= SeriesOrderOf(b))
    && (CategoryOf(a) == CategoryOf(b) && SeriesOrderOf(a) == SeriesOrderOf(b) ==>
          a.frontMatter.date.value.instant >= b.frontMatter.date.value.instant)
  }

  lemma CompareMeansListedBefore(a: Article, b: Article)
    requires Comparable(a) && Comparable(b)
    ensures Compare(a, b) <= 0 <==> ListedBefore(a, b)
  {
    var ka, kb := IndexOf(CategoryOrder, CategoryOf(a)), IndexOf(CategoryOrder, CategoryOf(b));
    assert CategoryOrder[ka] == CategoryOf(a) && CategoryOrder[kb] == CategoryOf(b);
    assert (CategoryOf(a) == CategoryOf(b)) == (ka == kb);
  }

  /** The order the listing shows when every article has a known category
      and a date: every earlier article is listed before every later one. */
  lemma ListingOrder(s: seq<Article>, i: nat, j: nat)
    requires forall a :: a in s ==> Comparable(a)
    requires i < j < |s|
    ensures var r := SortListing(s);
      Comparable(r[i]) && Comparable(r[j]) && ListedBefore(r[i], r[j])
  {
    var r := SortListing(s);
    SortListingSorted(s);
    SortListingMembers(s);
    assert r[i] in r && r[j] in r;
    CompareMeansListedBefore(r[i], r[j]);
  }

  /** One `<li>` of the listing, as the template literal in the loop builds it. */
  function ListItem(a: Article): string
  {
    "\n                <li>\n                    <a href=\"/articles/" + Interpolated(a.frontMatter.slug)
    + "/\" class=\"article-title\">" + Interpolated(a.frontMatter.title)
    + "</a>\n                    <p class=\"article-description\">" + OrEmpty(a.frontMatter.description)
    + "</p>\n                    <div class=\"article-meta\">" + OrEmpty(a.frontMatter.category)
    + "</div>\n                </li>"
  }

  const ListPlaceholder: string := "{{articles_list}}"

  /** The listing page: the listing template with every `{{articles_list}}`
      replaced by the items of the sorted articles, in sorted order. */
  function ListingPage(articles: seq<Article>, template: string): string
  {
    ReplaceAll(template, ListPlaceholder, Concat(Map(ListItem, SortListing(articles))))
  }

  /** `generateListingHtml`: sorts a copy, appends one item per article in a
      loop, then substitutes the list into the template. */
  method GenerateListingHtml(articles: seq<Article>, template: string) returns (html: string)
    ensures html == ListingPage(articles, template)
  {
    var sortedArticles := SortListing(articles);

    var articlesHtml := "";
    var i := 0;
    while i < |sortedArticles|
      invariant 0 <= i <= |sortedArticles|
      invariant articlesHtml == Concat(Map(ListItem, sortedArticles[..i]))
    {
      ConcatMapStep(ListItem, sortedArticles, i);
      articlesHtml := articlesHtml + ListItem(sortedArticles[i]);
      i := i + 1;
    }
    assert sortedArticles[..i] == sortedArticles;

    html := ReplaceAll(template, ListPlaceholder, articlesHtml);
  }

  /** `{{articles_list}}` cannot overlap itself: only its first two
      characters are `{`, and its first two characters differ. */
  lemma ListPlaceholderUnbordered()
    ensures Unbordered(ListPlaceholder)
  {
    var p := ListPlaceholder;
    assert p[2..] == "articles_list}}";
    forall m | 0 < m < |p|
      ensures p[..m] != p[|p| - m..]
    {
      if m == |p| - 1 {
        assert p[..m][1] == '{' != p[|p| - m..][1];
      } else {
        assert p[|p| - m..][0] in p[2..];
        assert p[..m][0] == '{' != p[|p| - m..][0];
      }
    }
  }

  /** A template holding `{{articles_list}}` once gets the items of the
      sorted articles, one per article, exactly at that place. */
  lemma ListingPageFillsPlaceholder(articles: seq<Article>, before: string, after: string)
    requires !Occurs(ListPlaceholder, before) && !Occurs(ListPlaceholder, after)
    ensures ListingPage(articles, before + ListPlaceholder + after) ==
            before + Concat(Map(ListItem, SortListing(articles))) + after
    ensures |Map(ListItem, SortListing(articles))| == |articles|
  {
    ListPlaceholderUnbordered();
    ReplaceAllSingle(before, after, ListPlaceholder, Concat(Map(ListItem, SortListing(articles))));
  }
}

=== FILE: pipeline.dfy ===
/** The per-file loop of `build`: every `.md` entry of the content
    directory is parsed and validated; an article that parsed and validated
    is kept and its page and WordPress export are produced, any other entry
    sets `hasErrors`. When at least one article was kept, the listing page
    and the sync warnings are produced from the kept articles. */
module Pipeline {
  import opened Seqs
  import opened Articles
  import opened Validation
  import opened Listing
  import opened Templates
  import opened Sync

  /** What parsing one file gave: an article, or an exception (unreadable
      file, malformed front matter). */
  datatype ParseOutcome = Parsed(article: Article) | ParseFailed(message: string)

  /** One entry of the content directory, with the outcome of parsing it. */
  datatype DirEntry = DirEntry(name: string, outcome: ParseOutcome)

  /** What is written for one kept article: its page under `slug/index.html`
      and its WordPress export under `slug.html`. */
  datatype ArticleOutput = ArticleOutput(slug: string, page: string, wordpress: string)

  datatype BuildReport = BuildReport(
    articles: seq<Article>,
    hasErrors: bool,
    outputs: seq<ArticleOutput>,
    listing: Option<string>,
    syncWarnings: seq<string>)

  /** `f.endsWith('.md')`. */
  predicate IsMarkdown(e: DirEntry)
  {
    |e.name| >= 3 && e.name[|e.name| - 3..] == ".md"
  }

  /** `path.join(CONTENT_DIR, file)`. */
  function FilePath(dir: string, name: string): string
  {
    dir + "/" + name
  }

  /** The entry parsed and its front matter has no validation error. */
  predicate Accepted(dir: string, e: DirEntry)
  {
    e.outcome.Parsed? && ValidationErrors(e.outcome.article.frontMatter, FilePath(dir, e.name)) == []
  }

  /** The articles of the accepted entries, in directory order. */
  function Kept(dir: string, files: seq<DirEntry>): seq<Article>
  {
    if files == [] then []
    else
      var last := files[|files| - 1];
      Kept(dir, files[..|files| - 1]) + (if Accepted(dir, last) then [last.outcome.article] else [])
  }

  function OutputFor(a: Article, articleTemplate: string, formatDate: Date -> string): ArticleOutput
  {
    ArticleOutput(Interpolated(a.frontMatter.slug), ArticleHtml(a, articleTemplate, formatDate), WordPressHtml(a))
  }

  /** The markdown files a directory listing yields; a missing directory
      yields none. */
  function MarkdownFiles(listing: Option<seq<DirEntry>>): seq<DirEntry>
  {
    if listing.Some? then Filter(IsMarkdown, listing.value) else []
  }

  /** Every kept article parsed from one of the files and passed
      validation: its title, slug, date and canonical_url are truthy and its
      slug is the file name without `.md`. */
  lemma {:induction false} KeptSound(dir: string, files: seq<DirEntry>)
    ensures forall a :: a in Kept(dir, files) ==>
      exists e :: e in files && e.outcome == Parsed(a)
        && Truthy(a.frontMatter.title) && Truthy(a.frontMatter.slug)
        && a.frontMatter.date.Some? && Truthy(a.frontMatter.canonicalUrl)
        && a.frontMatter.slug.value == Basename(FilePath(dir, e.name))
  {
    if files != [] {
      var init, last := files[..|files| - 1], files[|files| - 1];
      assert files == init + [last];
      KeptSound(dir, init);
      if Accepted(dir, last) {
        ValidationErrorsEmptyIff(last.outcome.article.frontMatter, FilePath(dir, last.name));
      }
    }
  }

  /** Every file that parsed and validated is kept. */
  lemma {:induction false} KeptComplete(dir: string, files: seq<DirEntry>)
    ensures forall e :: e in files && Accepted(dir, e) ==> e.outcome.article in Kept(dir, files)
  {
    if files != [] {
      var init, last := files[..|files| - 1], files[|files| - 1];
      assert files == init + [last];
      KeptComplete(dir, init);
    }
  }

  /** No more articles are kept than files are read, and all of them are
      kept exactly when every one is accepted. */
  lemma {:induction false} KeptCount(dir: string, files: seq<DirEntry>)
    ensures |Kept(dir, files)| <= |files|
    ensures |Kept(dir, files)| == |files| <==> forall e :: e in files ==> Accepted(dir, e)
  {
    if files != [] {
      var init, last := files[..|files| - 1], files[|files| - 1];
      assert files == init + [last];
      KeptCount(dir, init);
    }
  }

  lemma KeptStep(dir: string, files: seq<DirEntry>, i: nat)
    requires i < |files|
    ensures Kept(dir, files[..i + 1]) ==
            Kept(dir, files[..i]) + (if Accepted(dir, files[i]) then [files[i].outcome.article] else [])
  {
    assert files[..i + 1][..i] == files[..i];
  }

  /** The body of the `try` block for one file: a parse failure or any
      validation error rejects the file. */
  method ProcessFile(contentDir: string, file: DirEntry) returns (accepted: bool)
    ensures accepted == Accepted(contentDir, file)
  {
    if file.outcome.ParseFailed? {
      return false;
    }
    var validation := ValidateArticle(file.outcome.article, FilePath(contentDir, file.name));
    accepted := |validation.errors| == 0;
  }

  /** The `for (const file of files)` loop: keeps the accepted articles
      with their outputs, and notes whether any file was rejected. */
  method ProcessFiles(contentDir: string, files: seq<DirEntry>, articleTemplate: string,
                      formatDate: Date -> string)
    returns (articles: seq<Article>, outputs: seq<ArticleOutput>, hasErrors: bool)
    ensures articles == Kept(contentDir, files)
    ensures |outputs| == |articles|
    ensures forall k :: 0 <= k < |outputs| ==> outputs[k] == OutputFor(articles[k], articleTemplate, formatDate)
    ensures hasErrors <==> |articles| < |files|
  {
    articles := [];
    outputs := [];
    hasErrors := false;
    var i := 0;
    while i < |files|
      invariant 0 <= i <= |files|
      invariant articles == Kept(contentDir, files[..i])
      invariant |outputs| == |articles|
      invariant forall k :: 0 <= k < |outputs| ==> outputs[k] == OutputFor(articles[k], articleTemplate, formatDate)
      invariant |articles| <= i
      invariant hasErrors <==> |articles| < i
    {
      var file := files[i];
      KeptStep(contentDir, files, i);
      var accepted := ProcessFile(contentDir, file);
      if !accepted {
        hasErrors := true;
      } else {
        var article := file.outcome.article;
        articles := articles + [article];
        outputs := outputs + [OutputFor(article, articleTemplate, formatDate)];
      }
      i := i + 1;
    }
    assert files[..i] == files;
  }

  /** `build`, from the directory listing on: a missing content directory
      (`None`) or one without markdown files builds nothing; otherwise each
      markdown file is parsed, validated and either kept or counted as an
      error, and the listing and sync warnings are built from what was kept. */
  method Build(listing: Option<seq<DirEntry>>, contentDir: string, articleTemplate: string,
               listTemplate: string, formatDate: Date -> string)
    returns (report: BuildReport)
    ensures report.articles == Kept(contentDir, MarkdownFiles(listing))
    ensures report.hasErrors <==> |report.articles| < |MarkdownFiles(listing)|
    ensures |report.outputs| == |report.articles|
    ensures forall k :: 0 <= k < |report.outputs| ==>
              report.outputs[k] == OutputFor(report.articles[k], articleTemplate, formatDate)
    ensures report.listing == if |report.articles| > 0 then Some(ListingPage(report.articles, listTemplate)) else None
    ensures report.syncWarnings == SyncWarnings(report.articles)
  {
    var empty := BuildReport([], false, [], None, []);
    if listing.None? {
      return empty;
    }
    var files := Filter(IsMarkdown, listing.value);
    if |files| == 0 {
      return empty;
    }

    var articles, outputs, hasErrors := ProcessFiles(contentDir, files, articleTemplate, formatDate);

    var listingHtml, warnings := Publish(articles, listTemplate);
    report := BuildReport(articles, hasErrors, outputs, listingHtml, warnings);
  }

  /** The end of `build`: when some article was kept, the listing page and
      the sync warnings are produced from the kept articles; otherwise
      neither is. */
  method Publish(articles: seq<Article>, listTemplate: string)
    returns (listingHtml: Option<string>, warnings: seq<string>)
    ensures listingHtml == if |articles| > 0 then Some(ListingPage(articles, listTemplate)) else None
    ensures warnings == SyncWarnings(articles)
  {
    listingHtml := None;
    warnings := [];
    if |articles| > 0 {
      var html := GenerateListingHtml(articles, listTemplate);
      listingHtml := Some(html);
      warnings := CheckSyncStatus(articles);
    }
  }

  /** The build reports errors exactly when some markdown file was not
      published. */
  lemma BuildErrorsIffDropped(listing: Option<seq<DirEntry>>, contentDir: string)
    ensures (exists e :: e in MarkdownFiles(listing) && !Accepted(contentDir, e)) <==>
            |Kept(contentDir, MarkdownFiles(listing))| < |MarkdownFiles(listing)|
  {
    KeptCount(contentDir, MarkdownFiles(listing));
  }
}

=== FILE: seqs.dfy ===
/** Sequence helpers shared by the build model: filtering (JavaScript's
    `Array.prototype.filter` and the filter-and-push loops of the build
    script), string concatenation (`join('')` and `+=` in a loop) and the
    subsequence relation used to state that a filter keeps input order. */
module Seqs {

  /** The elements of `s` that satisfy `p`, in their original order. Defined
      from the back, as a left-to-right loop that pushes builds it. */
  function Filter<T(==,!new)>(p: T -> bool, s: seq<T>): (r: seq<T>)
    ensures |r| <= |s|
    ensures forall x :: x in r <==> x in s && p(x)
  {
    if s == [] then []
    else
      var init, last := s[..|s| - 1], s[|s| - 1];
      assert s == init + [last];
      Filter(p, init) + (if p(last) then [last] else [])
  }

  /** `a` can be obtained from `b` by deleting elements. */
  predicate IsSubsequence<T(==)>(a: seq<T>, b: seq<T>)
    decreases |b|
  {
    if a == [] then true
    else if b == [] then false
    else
      (a[|a| - 1] == b[|b| - 1] && IsSubsequence(a[..|a| - 1], b[..|b| - 1]))
      || IsSubsequence(a, b[..|b| - 1])
  }

  /** Filtering keeps the surviving elements in input order. */
  lemma {:induction false} FilterIsSubsequence<T(!new)>(p: T -> bool, s: seq<T>)
    ensures IsSubsequence(Filter(p, s), s)
  {
    if s != [] {
      var init, last := s[..|s| - 1], s[|s| - 1];
      FilterIsSubsequence(p, init);
      var r := Filter(p, s);
      if p(last) {
        assert r[..|r| - 1] == Filter(p, init);
      } else {
        assert r == Filter(p, init);
      }
    }
  }

  /** A filter returns nothing exactly when no element satisfies `p`. */
  lemma {:induction false} FilterEmptyIff<T(!new)>(p: T -> bool, s: seq<T>)
    ensures Filter(p, s) == [] <==> forall x :: x in s ==> !p(x)
  {
    if s != [] {
      var init, last := s[..|s| - 1], s[|s| - 1];
      assert s == init + [last];
      FilterEmptyIff(p, init);
    }
  }

  /** Concatenation of a sequence of strings, as `parts.join('')` or a loop
      of `+=` starting from the empty string. */
  function Concat(parts: seq<string>): string
  {
    if parts == [] then "" else Concat(parts[..|parts| - 1]) + parts[|parts| - 1]
  }

  /** Concatenation distributes over the concatenation of the parts. */
  lemma {:induction false} ConcatAppend(a: seq<string>, b: seq<string>)
    ensures Concat(a + b) == Concat(a) + Concat(b)
  {
    if b == [] {
      assert a + b == a;
    } else {
      assert (a + b)[..|a + b| - 1] == a + b[..|b| - 1];
      ConcatAppend(a, b[..|b| - 1]);
    }
  }

  /** `f` applied to every element of `s`, like `Array.prototype.map`. */
  function Map<T, U>(f: T -> U, s: seq<T>): (r: seq<U>)
    ensures |r| == |s|
    ensures forall i :: 0 <= i < |s| ==> r[i] == f(s[i])
  {
    if s == [] then [] else Map(f, s[..|s| - 1]) + [f(s[|s| - 1])]
  }

  lemma {:induction false} MapAppend<T, U>(f: T -> U, a: seq<T>, b: seq<T>)
    ensures Map(f, a + b) == Map(f, a) + Map(f, b)
  {
  }

  /** Extending a mapped concatenation by one more element, as a loop of
      `+=` does. */
  lemma ConcatMapStep<T>(f: T -> string, s: seq<T>, i: nat)
    requires i < |s|
    ensures Concat(Map(f, s[..i + 1])) == Concat(Map(f, s[..i])) + f(s[i])
  {
    var items := Map(f, s[..i]);
    assert s[..i + 1][..i] == s[..i];
    assert Map(f, s[..i + 1]) == items + [f(s[i])];
    assert (items + [f(s[i])])[..|items|] == items;
  }

  /** Extending a filter-then-map by one more element, as a loop that pushes
      `f(x)` for each `x` satisfying `p` does. */
  lemma MapFilterStep<T(!new), U>(f: T -> U, p: T -> bool, s: seq<T>, i: nat)
    requires i < |s|
    ensures Map(f, Filter(p, s[..i + 1])) ==
            Map(f, Filter(p, s[..i])) + (if p(s[i]) then [f(s[i])] else [])
  {
    var done := Filter(p, s[..i]);
    assert s[..i + 1][..i] == s[..i];
    if p(s[i]) {
      assert Filter(p, s[..i + 1]) == done + [s[i]];
      assert (done + [s[i]])[..|done|] == done;
    } else {
      assert Filter(p, s[..i + 1]) == done;
    }
  }
}

=== FILE: sorting.dfy ===
/** Insertion sort by a comparator in the style of `Array.prototype.sort`:
    `cmp(a, b)` is negative or zero when `a` may go first. Each element is
    placed before the first element of the sorted rest that it does not
    compare after, so an element stays ahead of every later element it does
    not compare after; in particular tied elements keep their input order
    (`InsertionSortKeepsOrder`), which is what makes the sort stable. */
module Sorting {

  /** Where `x` goes in `s`: before the first element it does not compare
      after, every element ahead of it comparing before `x`. */
  function InsertPos<T>(cmp: (T, T) -> int, x: T, s: seq<T>): (k: nat)
    ensures k <= |s|
    ensures forall m :: 0 <= m < k ==> cmp(x, s[m]) > 0
    ensures k < |s| ==> cmp(x, s[k]) <= 0
  {
    if s == [] || cmp(x, s[0]) <= 0 then 0
    else
      var k := InsertPos(cmp, x, s[1..]);
      assert forall m :: 0 < m <= k ==> s[m] == s[1..][m - 1];
      k + 1
  }

  /** Inserts `x` at `InsertPos`, keeping every other element in place. */
  function Insert<T>(cmp: (T, T) -> int, x: T, s: seq<T>): (r: seq<T>)
    ensures multiset(r) == multiset(s) + multiset{x}
    ensures |r| == |s| + 1
  {
    var k := InsertPos(cmp, x, s);
    assert s == s[..k] + s[k..];
    s[..k] + [x] + s[k..]
  }

  /** Sorts by inserting each element into the sorted rest. The result is a
      permutation of the input. */
  function InsertionSort<T>(cmp: (T, T) -> int, s: seq<T>): (r: seq<T>)
    ensures multiset(r) == multiset(s)
    ensures |r| == |s|
  {
    if s == [] then []
    else
      assert s == [s[0]] + s[1..];
      Insert(cmp, s[0], InsertionSort(cmp, s[1..]))
  }

  /** Neighbours are in comparator order. */
  predicate AdjacentSorted<T>(cmp: (T, T) -> int, s: seq<T>)
  {
    forall i :: 0 < i < |s| ==> cmp(s[i - 1], s[i]) <= 0
  }

  /** Inserting into a sequence whose neighbours are in order keeps them in
      order, provided "`a` after `b`" implies "`b` before `a`". */
  lemma InsertAdjacentSorted<T>(cmp: (T, T) -> int, x: T, s: seq<T>)
    requires forall a, b :: cmp(a, b) > 0 ==> cmp(b, a) < 0
    requires AdjacentSorted(cmp, s)
    ensures AdjacentSorted(cmp, Insert(cmp, x, s))
  {
    var k := InsertPos(cmp, x, s);
    var r := Insert(cmp, x, s);
    forall i | 0 < i < |r|
      ensures cmp(r[i - 1], r[i]) <= 0
    {
      if i < k {
        assert r[i - 1] == s[i - 1] && r[i] == s[i];
      } else if i == k {
        assert r[i - 1] == s[k - 1] && r[i] == x;
      } else if i == k + 1 {
        assert r[i - 1] == x && r[i] == s[k];
      } else {
        assert r[i - 1] == s[i - 2] && r[i] == s[i - 1];
      }
    }
  }

  /** Whatever else the comparator does, neighbours in the result are in
      comparator order. */
  lemma {:induction false} InsertionSortAdjacentSorted<T>(cmp: (T, T) -> int, s: seq<T>)
    requires forall a, b :: cmp(a, b) > 0 ==> cmp(b, a) < 0
    ensures AdjacentSorted(cmp, InsertionSort(cmp, s))
  {
    if s != [] {
      InsertionSortAdjacentSorted(cmp, s[1..]);
      InsertAdjacentSorted(cmp, s[0], InsertionSort(cmp, s[1..]));
    }
  }

  /** Every pair is in comparator order. */
  predicate Sorted<T>(cmp: (T, T) -> int, s: seq<T>)
  {
    forall i, j :: 0 <= i < j < |s| ==> cmp(s[i], s[j]) <= 0
  }

  /** The comparator is transitive on the elements of `s`. */
  predicate TransitiveOn<T>(cmp: (T, T) -> int, s: seq<T>)
  {
    forall i, j, k ::
      (0 <= i < |s| && 0 <= j < |s| && 0 <= k < |s| && cmp(s[i], s[j]) <= 0 && cmp(s[j], s[k]) <= 0)
      ==> cmp(s[i], s[k]) <= 0
  }

  lemma {:induction false} AdjacentChain<T>(cmp: (T, T) -> int, s: seq<T>, i: nat, j: nat)
    requires AdjacentSorted(cmp, s) && TransitiveOn(cmp, s)
    requires i < j < |s|
    ensures cmp(s[i], s[j]) <= 0
    decreases j - i
  {
    if i + 1 < j {
      AdjacentChain(cmp, s, i, j - 1);
    }
  }

  /** Where the comparator is transitive, ordered neighbours make every pair
      ordered. */
  lemma AdjacentSortedIsSorted<T>(cmp: (T, T) -> int, s: seq<T>)
    requires AdjacentSorted(cmp, s) && TransitiveOn(cmp, s)
    ensures Sorted(cmp, s)
  {
    forall i, j | 0 <= i < j < |s|
      ensures cmp(s[i], s[j]) <= 0
    {
      AdjacentChain(cmp, s, i, j);
    }
  }

  /** Some occurrence of `a` comes before some occurrence of `b` in `r`. */
  predicate Before<T(==)>(r: seq<T>, a: T, b: T)
  {
    exists p, q :: 0 <= p < q < |r| && r[p] == a && r[q] == b
  }

  /** Inserting keeps the elements already there in their order. */
  lemma InsertKeepsBefore<T>(cmp: (T, T) -> int, x: T, s: seq<T>, a: T, b: T)
    requires Before(s, a, b)
    ensures Before(Insert(cmp, x, s), a, b)
  {
    var k := InsertPos(cmp, x, s);
    var r := Insert(cmp, x, s);
    var p, q :| 0 <= p < q < |s| && s[p] == a && s[q] == b;
    var p', q' := if p < k then p else p + 1, if q < k then q else q + 1;
    assert r[p'] == a && r[q'] == b;
  }

  /** An inserted element goes ahead of every element it does not compare
      after. */
  lemma InsertBeforeLater<T>(cmp: (T, T) -> int, x: T, s: seq<T>, b: T)
    requires b in s && cmp(x, b) <= 0
    ensures Before(Insert(cmp, x, s), x, b)
  {
    var k := InsertPos(cmp, x, s);
    var r := Insert(cmp, x, s);
    var q :| 0 <= q < |s| && s[q] == b;
    assert k <= q;
    assert r[k] == x && r[q + 1] == b;
  }

  /** Whatever the comparator, an element stays ahead of every later element
      it does not compare after; tied elements keep their input order. */
  lemma {:induction false} InsertionSortKeepsOrder<T>(cmp: (T, T) -> int, s: seq<T>, i: nat, j: nat)
    requires i < j < |s|
    requires cmp(s[i], s[j]) <= 0
    ensures Before(InsertionSort(cmp, s), s[i], s[j])
  {
    var rest := InsertionSort(cmp, s[1..]);
    if i == 0 {
      assert s[1..][j - 1] == s[j];
      assert s[j] in multiset(s[1..]);
      assert s[j] in multiset(rest);
      InsertBeforeLater(cmp, s[0], rest, s[j]);
    } else {
      assert s[1..][i - 1] == s[i] && s[1..][j - 1] == s[j];
      InsertionSortKeepsOrder(cmp, s[1..], i - 1, j - 1);
      InsertKeepsBefore(cmp, s[0], rest, s[i], s[j]);
    }
  }
}

=== FILE: sync.dfy ===
/** Sync-drift detection (`checkSyncStatus`): an article whose front matter
    has both `updated` and `wordpress_synced`, with `updated` strictly later,
    has changed since it was last copied to WordPress and gets a warning. */
module Sync {
  import opened Seqs
  import opened Articles

  /** The article was edited after its last WordPress sync. */
  predicate Drifted(a: Article)
  {
    var fm := a.frontMatter;
    fm.updated.Some? && fm.wordpressSynced.Some? &&
    fm.updated.value.instant > fm.wordpressSynced.value.instant
  }

  /** The warning text for one article. */
  function SyncWarning(a: Article): string
  {
    var fm := a.frontMatter;
    "\U{26A0}\U{FE0F}  " + Interpolated(fm.slug) + ".md: updated " + DateText(fm.updated)
    + ", WordPress synced " + DateText(fm.wordpressSynced)
  }

  /** The warnings for `articles`: one per drifted article, in input order. */
  function SyncWarnings(articles: seq<Article>): seq<string>
  {
    Map(SyncWarning, Filter(Drifted, articles))
  }

  /** `checkSyncStatus`: loops over the articles and pushes a warning for
      each drifted one. */
  method CheckSyncStatus(articles: seq<Article>) returns (warnings: seq<string>)
    ensures warnings == SyncWarnings(articles)
  {
    warnings := [];
    var i := 0;
    while i < |articles|
      invariant 0 <= i <= |articles|
      invariant warnings == Map(SyncWarning, Filter(Drifted, articles[..i]))
    {
      MapFilterStep(SyncWarning, Drifted, articles, i);
      var article := articles[i];
      if Drifted(article) {
        warnings := warnings + [SyncWarning(article)];
      }
      i := i + 1;
    }
    assert articles[..i] == articles;
  }

  /** A warning is issued for an article exactly when it drifted; the
      warnings follow the articles' order, and there are never more
      warnings than articles. */
  lemma SyncWarningsCharacterised(articles: seq<Article>)
    ensures |SyncWarnings(articles)| <= |articles|
    ensures forall a :: a in articles && Drifted(a) ==> SyncWarning(a) in SyncWarnings(articles)
    ensures forall w :: w in SyncWarnings(articles) ==>
              exists a :: a in articles && Drifted(a) && w == SyncWarning(a)
    ensures IsSubsequence(Filter(Drifted, articles), articles)
  {
    var d := Filter(Drifted, articles);
    var ws := SyncWarnings(articles);
    forall a | a in articles && Drifted(a)
      ensures SyncWarning(a) in ws
    {
      var k :| 0 <= k < |d| && d[k] == a;
      assert ws[k] == SyncWarning(a);
    }
    forall w | w in ws
      ensures exists a :: a in articles && Drifted(a) && w == SyncWarning(a)
    {
      var k :| 0 <= k < |ws| && ws[k] == w;
      assert d[k] in d;
    }
    FilterIsSubsequence(Drifted, articles);
  }

  /** With no `updated` later than its `wordpress_synced`, nothing is reported. */
  lemma NoDriftNoWarnings(articles: seq<Article>)
    requires forall a :: a in articles ==> !Drifted(a)
    ensures SyncWarnings(articles) == []
  {
    FilterEmptyIff(Drifted, articles);
  }
}

=== FILE: templates.dfy ===
/** The string templating of the build script: the tag list
    (`generateTagsHtml`), the article page (`generateArticleHtml`, nine
    placeholder substitutions in a fixed order) and the WordPress export
    (`generateWordPressHtml`, two image-path rewrites). */
module Templates {
  import opened Seqs
  import opened Text
  import opened Articles

  /** One tag, as the `map` callback renders it. */
  function TagSpan(tag: string): string
  {
    "<span class=\"tag\">" + tag + "</span>"
  }

  /** `generateTagsHtml`: the empty string for missing or empty tags,
      otherwise the tags' spans joined with nothing in between. */
  function TagsHtml(tags: Option<seq<string>>): string
  {
    if tags.None? || |tags.value| == 0 then ""
    else Concat(Map(TagSpan, tags.value))
  }

  /** The tag list is empty exactly when there are no tags. */
  lemma TagsHtmlEmptyIff(tags: Option<seq<string>>)
    ensures TagsHtml(tags) == "" <==> tags.None? || tags.value == []
  {
    if tags.Some? && tags.value != [] {
      var parts := Map(TagSpan, tags.value);
      assert Concat(parts) == Concat(parts[..|parts| - 1]) + parts[|parts| - 1];
      assert |parts[|parts| - 1]| > 0;
    }
  }

  /** The tag list of one tag is its span, and the tag list of two runs of
      tags is the concatenation of theirs: the spans appear in tag order. */
  lemma TagsHtmlInOrder(a: seq<string>, b: seq<string>, t: string)
    ensures TagsHtml(Some([t])) == TagSpan(t)
    ensures TagsHtml(Some(a + b)) == TagsHtml(Some(a)) + TagsHtml(Some(b))
  {
    TagsHtmlSingle(t);
    TagsHtmlAppend(a, b);
  }

  lemma TagsHtmlSingle(t: string)
    ensures TagsHtml(Some([t])) == TagSpan(t)
  {
    assert Map(TagSpan, [t]) == [TagSpan(t)];
    assert Concat([TagSpan(t)]) == Concat([TagSpan(t)][..0]) + TagSpan(t);
  }

  lemma TagsHtmlAppend(a: seq<string>, b: seq<string>)
    ensures TagsHtml(Some(a + b)) == TagsHtml(Some(a)) + TagsHtml(Some(b))
  {
    if a == [] {
      assert a + b == b;
    } else if b == [] {
      assert a + b == a;
    } else {
      MapAppend(TagSpan, a, b);
      ConcatAppend(Map(TagSpan, a), Map(TagSpan, b));
    }
  }

  /** `{{name}}`, the placeholder syntax of the page templates. */
  function Placeholder(name: string): (r: string)
    ensures |r| == |name| + 4
  {
    "{{" + name + "}}"
  }

  /** Replaces each `{{name}}` in turn, in the order of `bindings`; text a
      binding inserts is seen by the bindings after it. */
  function Substitute(template: string, bindings: seq<(string, string)>): string
    decreases |bindings|
  {
    if bindings == [] then template
    else Substitute(ReplaceAll(template, Placeholder(bindings[0].0), bindings[0].1), bindings[1..])
  }

  /** `formatDate(article.frontMatter.date)`; a missing date is an invalid
      `Date`, which formats as "Invalid Date". */
  function FormattedDate(d: Option<Date>, formatDate: Date -> string): string
  {
    if d.Some? then formatDate(d.value) else "Invalid Date"
  }

  /** The placeholder values of an article page, in substitution order. */
  function ArticleBindings(a: Article, formatDate: Date -> string): seq<(string, string)>
  {
    var fm := a.frontMatter;
    [ ("title", Interpolated(fm.title)),
      ("slug", Interpolated(fm.slug)),
      ("date", DateText(fm.date)),
      ("formatted_date", FormattedDate(fm.date, formatDate)),
      ("description", OrEmpty(fm.description)),
      ("canonical_url", Interpolated(fm.canonicalUrl)),
      ("category", OrEmpty(fm.category)),
      ("tags", TagsHtml(fm.tags)),
      ("content", a.html) ]
  }

  /** `generateArticleHtml`. */
  function ArticleHtml(a: Article, template: string, formatDate: Date -> string): string
  {
    Substitute(template, ArticleBindings(a, formatDate))
  }

  /** Text with no `{{` is left alone by every substitution. */
  lemma {:induction false} SubstituteKeepsPlainText(t: string, bindings: seq<(string, string)>)
    requires !Occurs("{{", t)
    ensures Substitute(t, bindings) == t
    decreases |bindings|
  {
    if bindings != [] {
      var p := Placeholder(bindings[0].0);
      assert "{{" <= p;
      if Occurs(p, t) {
        OccursPrefix(p, "{{", t);
      }
      SubstituteKeepsPlainText(t, bindings[1..]);
    }
  }

  /** A template without `{{` comes out of `generateArticleHtml` unchanged. */
  lemma ArticleHtmlKeepsPlainTemplate(a: Article, template: string, formatDate: Date -> string)
    requires !Occurs("{{", template)
    ensures ArticleHtml(a, template, formatDate) == template
  {
    SubstituteKeepsPlainText(template, ArticleBindings(a, formatDate));
  }

  /** The substitutions run in order over the whole text so far: the title
      put in place of `{{title}}` goes through the eight substitutions that
      follow, and comes out as it went in when it holds no `{{`. */
  lemma ArticleHtmlTitleFirst(a: Article, formatDate: Date -> string)
    ensures ArticleHtml(a, "{{title}}", formatDate) ==
            Substitute(Interpolated(a.frontMatter.title), ArticleBindings(a, formatDate)[1..])
    ensures !Occurs("{{", Interpolated(a.frontMatter.title)) ==>
            ArticleHtml(a, "{{title}}", formatDate) == Interpolated(a.frontMatter.title)
  {
    var title := Interpolated(a.frontMatter.title);
    var b := ArticleBindings(a, formatDate);
    var t := "{{title}}";
    assert Placeholder(b[0].0) == t;
    assert t[..|t|] == t && t[|t|..] == "";
    assert ReplaceAll(t, t, title) == title + ReplaceAll("", t, title);
    assert ReplaceAll("", t, title) == "";
    assert title + "" == title;
    if !Occurs("{{", title) {
      SubstituteKeepsPlainText(title, b[1..]);
    }
  }

  /** In `before + {{content}} + after`, where neither side holds `{{`, no
      placeholder other than `{{content}}` can sit at index `i`: the only
      `{{` opens `{{content}}`, or starts one character earlier when
      `before` ends in `{`. */
  lemma PlaceholderNotAt(before: string, after: string, name: string, i: nat)
    requires !Occurs("{{", before) && !Occurs("{{", after)
    requires |name| >= 2 && name[0] != '{' && (name[0] != 'c' || name[1] != 'o')
    requires i + |Placeholder(name)| <= |before + Placeholder("content") + after|
    ensures (before + Placeholder("content") + after)[i..i + |Placeholder(name)|] != Placeholder(name)
  {
    var q := Placeholder("content");
    var t, p, n := before + q + after, Placeholder(name), |before|;
    var w := t[i..i + |p|];
    assert p[0] == '{' && p[1] == '{' && p[2] == name[0] && p[3] == name[1];
    assert w[0] == t[i] && w[1] == t[i + 1] && w[2] == t[i + 2] && w[3] == t[i + 3];
    if i + 2 <= n {
      NowhereIfNotOccurs("{{", before, i);
      assert before[i..i + 2] == [t[i], t[i + 1]];
    } else if i >= n + |q| {
      var j := i - n - |q|;
      NowhereIfNotOccurs("{{", after, j);
      assert after[j..j + 2] == [t[i], t[i + 1]];
    } else if i == n - 1 {
      assert t[i + 2] == q[1] == '{';
    } else if i == n {
      assert t[i + 2] == q[2] == 'c' && t[i + 3] == q[3] == 'o';
    } else if i < n + |q| - 1 {
      assert t[i + 1] == q[i + 1 - n] != '{';
    } else {
      assert t[i] == q[|q| - 1] == '}';
    }
  }

  /** Neither side holding `{{`, `{{content}}` is the only placeholder of
      `before + {{content}} + after` whose name does not start with `{` or
      `co`. */
  lemma NoPlaceholderBesideContent(before: string, after: string, name: string)
    requires !Occurs("{{", before) && !Occurs("{{", after)
    requires |name| >= 2 && name[0] != '{' && (name[0] != 'c' || name[1] != 'o')
    ensures !Occurs(Placeholder(name), before + Placeholder("content") + after)
  {
    var t := before + Placeholder("content") + after;
    if Occurs(Placeholder(name), t) {
      var i := OccursIndex(Placeholder(name), t);
      PlaceholderNotAt(before, after, name, i);
    }
  }

  /** When no placeholder but the last occurs in `t`, only the last
      substitution changes it. */
  lemma {:induction false} SubstituteOnlyLast(t: string, bindings: seq<(string, string)>)
    requires bindings != []
    requires forall k :: 0 <= k < |bindings| - 1 ==> !Occurs(Placeholder(bindings[k].0), t)
    ensures Substitute(t, bindings) ==
            ReplaceAll(t, Placeholder(bindings[|bindings| - 1].0), bindings[|bindings| - 1].1)
    decreases |bindings|
  {
    var rest := bindings[1..];
    if rest != [] {
      assert ReplaceAll(t, Placeholder(bindings[0].0), bindings[0].1) == t;
      assert forall k :: 0 <= k < |rest| ==> rest[k] == bindings[k + 1];
      SubstituteOnlyLast(t, rest);
    }
  }

  /** `{{content}}` cannot overlap itself. */
  lemma ContentPlaceholderUnbordered()
    ensures Unbordered(Placeholder("content"))
  {
    var p := Placeholder("content");
    forall m | 0 < m < |p|
      ensures p[..m] != p[|p| - m..]
    {
      if m == |p| - 1 {
        assert p[..m][1] == '{' != p[|p| - m..][1];
      } else {
        assert p[..m][0] == '{' != p[|p| - m..][0];
      }
    }
  }

  /** A page template with `{{content}}` in the middle of its HTML gets the
      article body at that place, the HTML around it kept, provided the HTML
      around it holds no `{{`: the eight earlier substitutions find nothing
      to replace. */
  lemma ArticleHtmlFillsContent(a: Article, before: string, after: string, formatDate: Date -> string)
    requires !Occurs("{{", before) && !Occurs("{{", after)
    ensures ArticleHtml(a, before + Placeholder("content") + after, formatDate) == before + a.html + after
  {
    var q := Placeholder("content");
    var t := before + q + after;
    var b := ArticleBindings(a, formatDate);
    forall k | 0 <= k < |b| - 1
      ensures !Occurs(Placeholder(b[k].0), t)
    {
      var name := b[k].0;
      assert name in ["title", "slug", "date", "formatted_date", "description", "canonical_url", "category", "tags"];
      NoPlaceholderBesideContent(before, after, name);
    }
    SubstituteOnlyLast(t, b);
    assert "{{" <= q;
    if Occurs(q, before) {
      OccursPrefix(q, "{{", before);
    }
    if Occurs(q, after) {
      OccursPrefix(q, "{{", after);
    }
    ContentPlaceholderUnbordered();
    ReplaceAllSingle(before, after, q, a.html);
  }

  const SharedImagesSrc: string := "src=\"/articles/images/"
  const SharedImagesUrl: string := "src=\"https://synthesiscoding.com/articles/images/"
  const LocalImagesSrc: string := "src=\"./images/"

  /** The absolute form of an article's own image directory. */
  function LocalImagesUrl(slug: string): string
  {
    "src=\"https://synthesiscoding.com/articles/" + slug + "/images/"
  }

  /** `generateWordPressHtml`: the article body with shared-image and
      article-image `src` prefixes made absolute, in that order. */
  function WordPressHtml(a: Article): string
  {
    var html := ReplaceAll(a.html, SharedImagesSrc, SharedImagesUrl);
    ReplaceAll(html, LocalImagesSrc, LocalImagesUrl(Interpolated(a.frontMatter.slug)))
  }

  /** Both rewrites in terms of what they do: the body is cut at every
      `src="/articles/images/` and glued back with the absolute prefix, then
      the result is cut at every `src="./images/` and glued back with the
      article's absolute image prefix. No cut piece holds the prefix it was
      cut at. */
  lemma WordPressHtmlRewrites(a: Article)
    ensures var once := Join(Pieces(a.html, SharedImagesSrc), SharedImagesUrl);
      WordPressHtml(a) ==
        Join(Pieces(once, LocalImagesSrc), LocalImagesUrl(Interpolated(a.frontMatter.slug)))
  {
    ReplaceAllIsSplitJoin(a.html, SharedImagesSrc, SharedImagesUrl);
    var once := ReplaceAll(a.html, SharedImagesSrc, SharedImagesUrl);
    ReplaceAllIsSplitJoin(once, LocalImagesSrc, LocalImagesUrl(Interpolated(a.frontMatter.slug)));
  }

  /** A body with neither relative image prefix is exported unchanged. */
  lemma WordPressHtmlKeepsPlainBody(a: Article)
    requires !Occurs(SharedImagesSrc, a.html) && !Occurs(LocalImagesSrc, a.html)
    ensures WordPressHtml(a) == a.html
  {
  }
}

=== FILE: text.dfy ===
/** Literal string replacement as the build script uses it: every
    `html.replace(/literal/g, value)` call replaces all non-overlapping
    occurrences of a fixed, non-empty string, scanning left to right.
    The replacement value is taken literally (see README, "Left out", for
    the `$` patterns JavaScript would interpret). */
module Text {

  /** `pat` occurs somewhere in `s`. */
  predicate Occurs(pat: string, s: string)
    decreases |s|
  {
    if |s| < |pat| then false
    else s[..|pat|] == pat || (|s| > 0 && Occurs(pat, s[1..]))
  }

  /** If a string occurs in `s`, so does every prefix of it. */
  lemma {:induction false} OccursPrefix(pat: string, q: string, s: string)
    requires q <= pat
    requires Occurs(pat, s)
    ensures Occurs(q, s)
  {
    if s[..|pat|] == pat {
      assert s[..|q|] == pat[..|q|] == q;
    } else {
      OccursPrefix(pat, q, s[1..]);
    }
  }

  /** An occurrence of `pat` sits at some index of `s`. */
  lemma {:induction false} OccursIndex(pat: string, s: string) returns (i: nat)
    requires Occurs(pat, s)
    ensures i + |pat| <= |s| && s[i..i + |pat|] == pat
    decreases |s|
  {
    if s[..|pat|] == pat {
      i := 0;
    } else {
      var j := OccursIndex(pat, s[1..]);
      i := j + 1;
      assert s[i..i + |pat|] == s[1..][j..j + |pat|];
    }
  }

  /** A string in which `pat` does not occur holds no copy of it at any index. */
  lemma {:induction false} NowhereIfNotOccurs(pat: string, s: string, i: nat)
    requires !Occurs(pat, s)
    requires i + |pat| <= |s|
    ensures s[i..i + |pat|] != pat
    decreases i
  {
    if i > 0 {
      var u := s[1..];
      var here, there := s[i..i + |pat|], u[i - 1..i - 1 + |pat|];
      assert forall k :: 0 <= k < |pat| ==> here[k] == there[k];
      NowhereIfNotOccurs(pat, u, i - 1);
    }
  }

  /** Replaces every occurrence of `pat` in `s` by `rep`, leftmost first and
      without overlaps, like `s.replace(/pat/g, rep)` for a literal `pat`.
      A string in which `pat` does not occur comes back unchanged. */
  function ReplaceAll(s: string, pat: string, rep: string): (r: string)
    requires |pat| > 0
    ensures !Occurs(pat, s) ==> r == s
    decreases |s|
  {
    if |s| < |pat| then s
    else if s[..|pat|] == pat then rep + ReplaceAll(s[|pat|..], pat, rep)
    else
      assert !Occurs(pat, s) ==> !Occurs(pat, s[1..]);
      assert s == [s[0]] + s[1..];
      [s[0]] + ReplaceAll(s[1..], pat, rep)
  }

  /** `parts` joined with `sep` between consecutive parts, like
      `parts.join(sep)`. */
  function Join(parts: seq<string>, sep: string): string
  {
    if parts == [] then ""
    else if |parts| == 1 then parts[0]
    else parts[0] + sep + Join(parts[1..], sep)
  }

  lemma JoinConsHead(c: string, x: string, rest: seq<string>, sep: string)
    ensures Join([c + x] + rest, sep) == c + Join([x] + rest, sep)
  {
    if rest != [] {
      assert ([c + x] + rest)[1..] == rest;
      assert ([x] + rest)[1..] == rest;
    }
  }

  lemma JoinPrefix(parts: seq<string>, sep: string)
    requires parts != []
    ensures parts[0] <= Join(parts, sep)
  {
  }

  /** The pieces of `s` between the leftmost non-overlapping occurrences of
      `pat`, like `s.split(pat)`: joining them with `pat` gives `s` back, and
      no piece contains `pat`. */
  function Pieces(s: string, pat: string): (r: seq<string>)
    requires |pat| > 0
    ensures |r| >= 1
    ensures Join(r, pat) == s
    ensures forall k :: 0 <= k < |r| ==> !Occurs(pat, r[k])
    decreases |s|
  {
    if |s| < |pat| then
      assert !Occurs(pat, s);
      [s]
    else if s[..|pat|] == pat then
      var p := Pieces(s[|pat|..], pat);
      assert !Occurs(pat, "");
      assert ([""] + p)[1..] == p;
      assert s == pat + s[|pat|..];
      [""] + p
    else
      var p := Pieces(s[1..], pat);
      var head := [s[0]] + p[0];
      JoinConsHead([s[0]], p[0], p[1..], pat);
      assert [p[0]] + p[1..] == p;
      assert s == [s[0]] + s[1..];
      JoinPrefix(p, pat);
      assert head <= s;
      assert !Occurs(pat, head) by {
        if |head| >= |pat| {
          assert head[..|pat|] == s[..|pat|];
          assert head[1..] == p[0];
        }
      }
      [head] + p[1..]
  }

  /** Replacing all occurrences of `pat` is the same as splitting on `pat`
      and joining with `rep`: every occurrence of `pat` in the input is
      replaced by `rep`, and the text between occurrences is kept as it is. */
  lemma {:induction false} ReplaceAllIsSplitJoin(s: string, pat: string, rep: string)
    requires |pat| > 0
    ensures ReplaceAll(s, pat, rep) == Join(Pieces(s, pat), rep)
    decreases |s|
  {
    if |s| < |pat| {
    } else if s[..|pat|] == pat {
      ReplaceAllIsSplitJoin(s[|pat|..], pat, rep);
      var p := Pieces(s[|pat|..], pat);
      assert ([""] + p)[1..] == p;
    } else {
      ReplaceAllIsSplitJoin(s[1..], pat, rep);
      var p := Pieces(s[1..], pat);
      JoinConsHead([s[0]], p[0], p[1..], rep);
      assert [p[0]] + p[1..] == p;
    }
  }

  /** No proper prefix of `pat` is also a suffix of it, so two occurrences
      of `pat` can never overlap. */
  predicate Unbordered(pat: string)
  {
    forall m :: 0 < m < |pat| ==> pat[..m] != pat[|pat| - m..]
  }

  /** An occurrence of `pat` cannot start inside a non-empty `a` that does
      not contain it when `pat` follows `a` and cannot overlap itself. */
  lemma NoOccurrenceAtStart(a: string, b: string, pat: string)
    requires |pat| > 0 && Unbordered(pat)
    requires a != [] && !Occurs(pat, a)
    ensures (a + pat + b)[..|pat|] != pat
  {
    var s := a + pat + b;
    if |a| >= |pat| {
      assert s[..|pat|] == a[..|pat|];
    } else {
      var m := |pat| - |a|;
      var t := s[..|pat|];
      assert t[|a|..] == pat[..m];
      assert pat[|a|..] == pat[|pat| - m..] != pat[..m];
    }
  }

  /** A string without `pat` has no `pat` after its first character either. */
  lemma NoOccurrenceInTail(pat: string, a: string)
    requires |pat| > 0 && a != [] && !Occurs(pat, a)
    ensures !Occurs(pat, a[1..])
  {
  }

  /** One step of the scan when `pat` starts the text. */
  lemma ReplaceAllMatchStep(pat: string, b: string, rep: string)
    requires |pat| > 0
    ensures ReplaceAll(pat + b, pat, rep) == rep + ReplaceAll(b, pat, rep)
  {
    var s := pat + b;
    assert s[..|pat|] == pat && s[|pat|..] == b;
  }

  /** One step of the scan when `pat` does not start the text. */
  lemma ReplaceAllSkipStep(s: string, pat: string, rep: string)
    requires 0 < |pat| <= |s| && s[..|pat|] != pat
    ensures ReplaceAll(s, pat, rep) == [s[0]] + ReplaceAll(s[1..], pat, rep)
  {
  }

  /** In `a + pat + b`, where `pat` does not occur in `a` and cannot overlap
      itself, the scan passes over `a`, replaces that `pat`, and goes on with
      `b` alone. */
  lemma {:induction false} ReplaceAllAfterPlain(a: string, b: string, pat: string, rep: string)
    requires |pat| > 0 && Unbordered(pat)
    requires !Occurs(pat, a)
    ensures ReplaceAll(a + pat + b, pat, rep) == a + rep + ReplaceAll(b, pat, rep)
    decreases |a|
  {
    if a == [] {
      assert a + pat + b == pat + b;
      ReplaceAllMatchStep(pat, b, rep);
    } else {
      var s, t := a + pat + b, a[1..];
      NoOccurrenceAtStart(a, b, pat);
      NoOccurrenceInTail(pat, a);
      ReplaceAllSkipStep(s, pat, rep);
      assert s[0] == a[0] && s[1..] == t + pat + b;
      ReplaceAllAfterPlain(t, b, pat, rep);
      calc {
        ReplaceAll(s, pat, rep);
        [a[0]] + ReplaceAll(t + pat + b, pat, rep);
        [a[0]] + (t + rep + ReplaceAll(b, pat, rep));
        { assert [a[0]] + t == a; }
        a + rep + ReplaceAll(b, pat, rep);
      }
    }
  }

  /** A pattern that cannot overlap itself, occurring once with no other
      occurrence before or after it, is replaced at that place and the text
      around it is kept. */
  lemma ReplaceAllSingle(before: string, after: string, pat: string, rep: string)
    requires |pat| > 0 && Unbordered(pat)
    requires !Occurs(pat, before) && !Occurs(pat, after)
    ensures ReplaceAll(before + pat + after, pat, rep) == before + rep + after
  {
    ReplaceAllAfterPlain(before, after, pat, rep);
  }
}

=== FILE: validation.dfy ===
/** Front-matter validation (`validateArticle`): four required fields must
    be truthy, and a truthy slug must equal the file name with its `.md`
    extension removed. Errors are collected, never thrown; the warnings list
    is returned empty. */
module Validation {
  import opened Seqs
  import opened Articles

  /** The fields whose absence is an error, in the order they are checked. */
  const RequiredFields: seq<string> := ["title", "slug", "date", "canonical_url"]

  /** The front-matter field a required-field name denotes is truthy. A date
      is an object once parsed, so it is truthy whenever it is present. */
  predicate Present(fm: FrontMatter, field: string)
  {
    if field == "title" then Truthy(fm.title)
    else if field == "slug" then Truthy(fm.slug)
    else if field == "date" then fm.date.Some?
    else if field == "canonical_url" then Truthy(fm.canonicalUrl)
    else false
  }

  /** The error one required field contributes: a message naming it when
      it is not present, nothing otherwise. */
  function FieldErrors(fm: FrontMatter, field: string): seq<string>
  {
    if Present(fm, field) then [] else [MissingFieldMessage(field)]
  }

  /** The missing-field errors for `fields`, in the order of `fields`. */
  function MissingErrors(fm: FrontMatter, fields: seq<string>): seq<string>
  {
    if fields == [] then []
    else MissingErrors(fm, fields[..|fields| - 1]) + FieldErrors(fm, fields[|fields| - 1])
  }

  function MissingFieldMessage(field: string): string
  {
    "Missing required field: " + field
  }

  function MismatchMessage(slug: string, filename: string): string
  {
    "Slug \"" + slug + "\" does not match filename \"" + filename + "\""
  }

  /** The last segment of a slash-separated path: the longest suffix
      without a `/`, so either the whole path or the text after its last
      `/`. */
  function LastSegment(path: string): (r: string)
    ensures '/' !in r
    ensures |r| <= |path| && r == path[|path| - |r|..]
    ensures r == path || path[|path| - |r| - 1] == '/'
  {
    if path == [] || path[|path| - 1] == '/' then ""
    else
      var init, c := path[..|path| - 1], path[|path| - 1];
      var seg := LastSegment(init);
      assert path == init + [c];
      assert path[|path| - |seg| - 1..] == init[|init| - |seg|..] + [c];
      assert seg != init ==> path[|path| - |seg| - 2] == init[|init| - |seg| - 1];
      seg + [c]
  }

  /** `path.basename(filePath, '.md')`: the last segment with a trailing
      `.md` removed, unless the segment is exactly `.md`. */
  function Basename(filePath: string): (r: string)
    ensures r == LastSegment(filePath) || r + ".md" == LastSegment(filePath)
    ensures r + ".md" == LastSegment(filePath) ==> |r| > 0
    ensures '/' !in r
  {
    var name := LastSegment(filePath);
    if |name| > 3 && name[|name| - 3..] == ".md" then
      assert name[..|name| - 3] + ".md" == name;
      name[..|name| - 3]
    else name
  }

  /** The file name the build script passes for a directory entry `name` is
      `name` itself with `.md` removed, whatever the directory. */
  lemma {:induction false} BasenameOfEntry(dir: string, name: string)
    requires '/' !in name
    ensures Basename(dir + "/" + name) ==
            if |name| > 3 && name[|name| - 3..] == ".md" then name[..|name| - 3] else name
  {
    LastSegmentOfEntry(dir, name);
  }

  lemma {:induction false} LastSegmentOfEntry(dir: string, name: string)
    requires '/' !in name
    ensures LastSegment(dir + "/" + name) == name
    decreases |name|
  {
    var path := dir + "/" + name;
    if name == [] {
      assert path[|path| - 1] == '/';
    } else {
      var init := name[..|name| - 1];
      assert path[..|path| - 1] == dir + "/" + init;
      assert path[|path| - 1] == name[|name| - 1] != '/';
      LastSegmentOfEntry(dir, init);
      assert init + [name[|name| - 1]] == name;
    }
  }

  /** The slug consistency error, if any. */
  function MismatchErrors(fm: FrontMatter, filePath: string): seq<string>
  {
    if Truthy(fm.slug) && fm.slug.value != Basename(filePath)
    then [MismatchMessage(fm.slug.value, Basename(filePath))]
    else []
  }

  /** The errors `validateArticle` reports: one per missing required field,
      in checking order, then the slug consistency error. */
  function ValidationErrors(fm: FrontMatter, filePath: string): seq<string>
  {
    MissingErrors(fm, RequiredFields) + MismatchErrors(fm, filePath)
  }

  datatype ValidationResult = ValidationResult(errors: seq<string>, warnings: seq<string>)

  /** The errors come in the order title, slug, date, canonical_url, then
      the slug/file name mismatch, each present exactly when its check fails. */
  lemma ValidationErrorsInOrder(fm: FrontMatter, filePath: string)
    ensures MissingErrors(fm, RequiredFields) ==
      FieldErrors(fm, "title") + FieldErrors(fm, "slug") + FieldErrors(fm, "date")
      + FieldErrors(fm, "canonical_url")
    ensures ValidationErrors(fm, filePath) ==
      FieldErrors(fm, "title") + FieldErrors(fm, "slug") + FieldErrors(fm, "date")
      + FieldErrors(fm, "canonical_url") + MismatchErrors(fm, filePath)
  {
    var r := RequiredFields;
    assert r[..4][..3] == r[..3] && r[..3][..2] == r[..2] && r[..2][..1] == r[..1] && r[..1][..0] == [];
    assert r[..4] == r;
    assert MissingErrors(fm, r[..1]) == FieldErrors(fm, "title");
    assert MissingErrors(fm, r[..2]) == MissingErrors(fm, r[..1]) + FieldErrors(fm, "slug");
    assert MissingErrors(fm, r[..3]) == MissingErrors(fm, r[..2]) + FieldErrors(fm, "date");
    assert MissingErrors(fm, r) == MissingErrors(fm, r[..3]) + FieldErrors(fm, "canonical_url");
  }

  /** An article has no validation errors exactly when title, slug, date and
      canonical_url are all truthy and the slug equals the file name without
      its `.md` extension. */
  lemma ValidationErrorsEmptyIff(fm: FrontMatter, filePath: string)
    ensures ValidationErrors(fm, filePath) == [] <==>
      && Truthy(fm.title)
      && Truthy(fm.slug)
      && fm.date.Some?
      && Truthy(fm.canonicalUrl)
      && fm.slug.value == Basename(filePath)
  {
    ValidationErrorsInOrder(fm, filePath);
  }

  /** At most four errors: a mismatch is only reported for a truthy slug,
      which rules out the missing-slug error. */
  lemma ValidationErrorsAtMostFour(fm: FrontMatter, filePath: string)
    ensures |ValidationErrors(fm, filePath)| <= 4
  {
    ValidationErrorsInOrder(fm, filePath);
  }

  /** With no slug, the file name plays no part: no mismatch is reported and
      the errors are the same for every path. */
  lemma ValidationIgnoresPathWithoutSlug(fm: FrontMatter, p: string, q: string)
    requires !Truthy(fm.slug)
    ensures MissingFieldMessage("slug") in ValidationErrors(fm, p)
    ensures ValidationErrors(fm, p) == ValidationErrors(fm, q)
  {
    ValidationErrorsInOrder(fm, p);
    ValidationErrorsInOrder(fm, q);
  }

  /** The messages never stand for one another: two required fields have
      different first letters, and a missing-field message starts with `M`
      where the mismatch message starts with `S`. */
  lemma MessagesDistinct(f: string, g: string, slug: string, filename: string)
    requires f in RequiredFields && g in RequiredFields && f != g
    ensures MissingFieldMessage(f) != MissingFieldMessage(g)
    ensures MissingFieldMessage(f) != MismatchMessage(slug, filename)
  {
    assert MissingFieldMessage(f)[24] == f[0] && MissingFieldMessage(g)[24] == g[0];
    assert MissingFieldMessage(f)[0] == 'M' != MismatchMessage(slug, filename)[0];
  }

  /** The message naming required field `f` comes from `f`'s own check. */
  lemma FieldReported(fm: FrontMatter, filePath: string, f: string)
    requires f in RequiredFields
    ensures MissingFieldMessage(f) in ValidationErrors(fm, filePath) <==> !Present(fm, f)
  {
    ValidationErrorsInOrder(fm, filePath);
    var m := MissingFieldMessage(f);
    forall g | g in RequiredFields
      ensures m in FieldErrors(fm, g) <==> f == g && !Present(fm, g)
    {
      if f != g {
        MessagesDistinct(f, g, "", "");
      }
    }
    if Truthy(fm.slug) {
      var g := if f == "title" then "slug" else "title";
      MessagesDistinct(f, g, fm.slug.value, Basename(filePath));
    }
    assert m !in MismatchErrors(fm, filePath);
  }

  /** Each required field is reported missing exactly when it is not truthy
      (the date: when it is absent), whatever else is wrong with the file. */
  lemma MissingFieldReported(fm: FrontMatter, filePath: string)
    ensures MissingFieldMessage("title") in ValidationErrors(fm, filePath) <==> !Truthy(fm.title)
    ensures MissingFieldMessage("slug") in ValidationErrors(fm, filePath) <==> !Truthy(fm.slug)
    ensures MissingFieldMessage("date") in ValidationErrors(fm, filePath) <==> fm.date.None?
    ensures MissingFieldMessage("canonical_url") in ValidationErrors(fm, filePath) <==> !Truthy(fm.canonicalUrl)
  {
    FieldReported(fm, filePath, "title");
    FieldReported(fm, filePath, "slug");
    FieldReported(fm, filePath, "date");
    FieldReported(fm, filePath, "canonical_url");
  }

  /** `validateArticle`: pushes one error per failed check onto `errors` and
      returns an empty `warnings` list. */
  method ValidateArticle(article: Article, filePath: string) returns (result: ValidationResult)
    ensures result.errors == ValidationErrors(article.frontMatter, filePath)
    ensures result.warnings == []
  {
    var errors: seq<string> := [];
    var warnings: seq<string> := [];
    var fm := article.frontMatter;

    if !Truthy(fm.title) {
      errors := errors + [MissingFieldMessage("title")];
    }
    assert errors == FieldErrors(fm, "title");
    if !Truthy(fm.slug) {
      errors := errors + [MissingFieldMessage("slug")];
    }
    assert errors == FieldErrors(fm, "title") + FieldErrors(fm, "slug");
    if fm.date.None? {
      errors := errors + [MissingFieldMessage("date")];
    }
    assert errors == FieldErrors(fm, "title") + FieldErrors(fm, "slug") + FieldErrors(fm, "date");
    if !Truthy(fm.canonicalUrl) {
      errors := errors + [MissingFieldMessage("canonical_url")];
    }
    assert errors == MissingErrors(fm, RequiredFields) by {
      ValidationErrorsInOrder(fm, filePath);
    }

    // Validate slug matches filename
    var filename := Basename(filePath);
    if Truthy(fm.slug) && fm.slug.value != filename {
      errors := errors + [MismatchMessage(fm.slug.value, filename)];
    }

    result := ValidationResult(errors, warnings);
  }
}
